=== FILE: README.md ===
# Fang pairwise orientation and the FAS-LOFS wrapper, in Dafny

This project models two pieces of Tetrad.

The first is the pairwise orientation pass of `Fang.search`. The adjacency
search produces a skeleton. The pass then starts from an empty graph and visits
every pair of variables (X, Y), with X before Y in the variable list, exactly
once. For each pair it does the following:

- From the two standardized columns, it accumulates the positive-part moments:
  sums over the rows where x > 0 and, separately, over the rows where y > 0,
  each divided by its own row count.
- From the moments it forms the slope ratios q1 and q2.
- It applies a gate: the pair is considered only if the skeleton has it, or if
  one ratio is below 0.2 and the two ratios differ by more than 0.2.
- For a gated pair it computes five covariances with `covarianceOfPart`: c
  over all rows, and c1 to c4 over the rows where x > 0, y > 0, x < 0 and
  y < 0. Each zero-fills the dropped rows and then removes zeros with
  `nonzero`. It also computes the skew R.
- It writes one outcome from a first-match decision list:
  1. knowledge orienting X -> Y;
  2. knowledge orienting Y -> X;
  3. a RED two-cycle when the signs disagree;
  4. a GREEN two-cycle when both ratios exceed 0.5 in magnitude;
  5. otherwise a direction from the sign of R, or an undirected edge when R is 0.

The second is the `FasLofs` algorithm wrapper. From its parameters it chooses
either a direct search or a bootstrap run. It maps the integer ensemble code to
the ensemble that merges the bootstrap graphs, and it declares its parameter
list.

The modules are:

- `FangParts`: sign, `nonzero`, the row selections and `covarianceOfPart`.
- `FangMoments`: positive-part sums, counts, moments and ratios, and the row
  loop that accumulates them.
- `FangOrient`: knowledge, edge states, the gate and the decision list.
- `FangSearch`: the pair statistics, the pair pass as a row-major sweep, and
  the loop methods that compute it.
- `FasLofs`: the parameter dispatch, the ensemble codes and the parameter list.

A pair outcome is an `EdgeState`:

- `NoEdge`;
- `Undirected`;
- `Directed(LeftToRight | RightToLeft)`, relative to the pair's order;
- `TwoCycle(Red | Green)`, which carries both arcs.

The output graph is a map from (i, j), with i < j, to the outcome of every pair
that got an edge.

Three things are inputs to the model rather than part of it:

- the covariance of the statistics library, as `cov`;
- the skeleton, as `adjacent`;
- the knowledge, as two predicates over variable names.

Doubles are modelled as mathematical reals.

Two details of the code shape the model:

- **The gate compares the ratios signed.** Fang.java line 157 tests
  `q1 < 0.2 || q2 < 0.2`, not the magnitudes. So a non-adjacent pair with
  q1 = -1.0 and q2 = 0.3 is gated: q1 is below 0.2 and the ratios differ by
  1.3. `FangOrient.GateIsSigned` proves this for that pair.
- **A column with no positive entry gives a zero count.** The code divides by
  that count (lines 148-151) without a check. The model requires a positive
  entry in every column (`FangSearch.Valid`), so every count it divides by is
  non-zero.

## Model

All source paths are relative to the repository root. Fang.java is `tetrad-lib/src/main/java/edu/cmu/tetrad/search/Fang.java`. FasLofs.java is `tetrad-lib/src/main/java/edu/cmu/tetrad/algcomparison/algorithm/multi/FasLofs.java`.

| member | source | states |
|---|---|---|
| FangParts.Sign | tetrad-lib/src/main/java/edu/cmu/tetrad/search/Fang.java:170-171 | The sign is -1, 0 or 1. It is 1 exactly for positive values and -1 exactly for negative ones. |
| FangParts.Nonzero | tetrad-lib/src/main/java/edu/cmu/tetrad/search/Fang.java:237-255 | Definition of `nonzero`: the input's non-zero entries, in order. Its length and contents are stated by `NonzeroShape` and `NonzeroIsIndexedSelection`. |
| FangParts.NonzeroShape | tetrad-lib/src/main/java/edu/cmu/tetrad/search/Fang.java:237-255 | `nonzero` returns exactly as many entries as the input has non-zero ones, and none of them is zero. |
| FangParts.NonzeroIndices | tetrad-lib/src/main/java/edu/cmu/tetrad/search/Fang.java:248-252 | The positions `nonzero` copies from are strictly increasing, hold non-zero values, and include every non-zero position. |
| FangParts.NonzeroIsIndexedSelection | tetrad-lib/src/main/java/edu/cmu/tetrad/search/Fang.java:246-252 | The result of `nonzero` is the input read at those increasing positions, so the filter keeps its entries in their original order. |
| FangParts.NonzeroAppend | tetrad-lib/src/main/java/edu/cmu/tetrad/search/Fang.java:248-252 | Filtering distributes over concatenation. |
| FangParts.NonzeroOfNonzeroFree | tetrad-lib/src/main/java/edu/cmu/tetrad/search/Fang.java:237-255 | A column without zeros passes through `nonzero` unchanged. |
| FangParts.NonzeroIdempotent | tetrad-lib/src/main/java/edu/cmu/tetrad/search/Fang.java:237-255 | Applying `nonzero` twice is the same as applying it once. |
| FangParts.CountNonzeroLoop | tetrad-lib/src/main/java/edu/cmu/tetrad/search/Fang.java:238-242 | The counting pass yields the length of the filtered column. |
| FangParts.CopyNonzeroLoop | tetrad-lib/src/main/java/edu/cmu/tetrad/search/Fang.java:246-252 | The copying pass yields the non-zero entries in order. |
| FangParts.NonzeroTwoPass | tetrad-lib/src/main/java/edu/cmu/tetrad/search/Fang.java:237-255 | The two-pass procedure (count, allocate, copy), with the array modelled as a sequence, returns the functional filter of its input. |
| FangParts.RowsOfOwnSign | tetrad-lib/src/main/java/edu/cmu/tetrad/search/Fang.java:216-227 | Selecting a column's rows by that column's own sign leaves only entries of that sign. |
| FangParts.Masked | tetrad-lib/src/main/java/edu/cmu/tetrad/search/Fang.java:209-229 | Definition of the zero-filled copy that `covarianceOfPart` builds: a kept row holds its value, any other row holds 0. Its length and entries are stated by `MaskedEntries`. |
| FangParts.MaskedEntries | tetrad-lib/src/main/java/edu/cmu/tetrad/search/Fang.java:209-229 | The zero-filled copy has the input's length. Every row the selection keeps holds its value, and every other row holds 0. |
| FangParts.MaskedIsRows | tetrad-lib/src/main/java/edu/cmu/tetrad/search/Fang.java:212-232 | When the selection keeps exactly the rows whose guard has a given sign, zero-filling then filtering gives the same result as filtering the selected rows. |
| FangParts.MaskedNone | tetrad-lib/src/main/java/edu/cmu/tetrad/search/Fang.java:212-232 | A selection other than the five recognised ones hands two empty columns to the covariance. |
| FangParts.CovarianceOfPart | tetrad-lib/src/main/java/edu/cmu/tetrad/search/Fang.java:206-235 | Definition of `covarianceOfPart`: `cov` of the two zero-filled copies, each with `nonzero` applied. The columns it passes, per selection, are stated by `CovarianceOfPartCases`. |
| FangParts.CovarianceOfPartCases | tetrad-lib/src/main/java/edu/cmu/tetrad/search/Fang.java:206-235 | Per selection, the two columns given to the covariance. (0,0) gives both columns with `nonzero` applied. The one-sided selections give the guard column's rows of the chosen sign, and the other column's entries in those rows with `nonzero` applied. Any other selection gives two empty columns. |
| FangParts.PartColumnsMayDifferInLength | tetrad-lib/src/main/java/edu/cmu/tetrad/search/Fang.java:231-234 | Because `nonzero` runs on each column separately, a kept row that holds a zero in the other column shifts the pairing. The input shown hands two x values and one y value to the covariance. |
| FangMoments.CountPositive | tetrad-lib/src/main/java/edu/cmu/tetrad/search/Fang.java:131-146 | Definition of the counts na and nb: the number of rows where the column is strictly positive. `CountPositiveWitness` states when it is non-zero, and `PositiveMoments` that the moments divide by it. |
| FangMoments.PositivePartSum | tetrad-lib/src/main/java/edu/cmu/tetrad/search/Fang.java:134-146 | Definition of the guarded sums sxyxp, sxxxp, sxyyp and syyyp: the sum of a[k] * b[k] over the rows where the guard column is strictly positive. `AccumulateMoments` shows the row loop computes it, and `PositiveSquares` bounds the squared sums. |
| FangMoments.CountPositiveWitness | tetrad-lib/src/main/java/edu/cmu/tetrad/search/Fang.java:131-146 | The count of positive rows is non-zero exactly when the column has a positive entry. |
| FangMoments.PositiveSquares | tetrad-lib/src/main/java/edu/cmu/tetrad/search/Fang.java:134-146 | The sum of squares over the positive rows is never negative, and it is positive exactly when there is a positive row. |
| FangMoments.PositivePartSumCommutes | tetrad-lib/src/main/java/edu/cmu/tetrad/search/Fang.java:136-142 | The positive-part sum of x*y over a row subset does not depend on the order of the factors. |
| FangMoments.PositiveMoments | tetrad-lib/src/main/java/edu/cmu/tetrad/search/Fang.java:148-151 | When both columns have a positive row, both mean squares (the ratio denominators) are positive. The counts are the numbers of x > 0 and y > 0 rows. |
| FangMoments.AccumulateMoments | tetrad-lib/src/main/java/edu/cmu/tetrad/search/Fang.java:126-151 | The single row loop with its two independent guards, followed by the divisions, computes the positive-part moments. |
| FangMoments.Ratios | tetrad-lib/src/main/java/edu/cmu/tetrad/search/Fang.java:153-154 | Definition of q1 = sxyxp / sxxxp and q2 = sxyyp / syyyp. `CountsCancel` states them as ratios of raw sums, and `ProportionalColumnsSlope` shows q1 is the slope for proportional columns. |
| FangMoments.CountsCancel | tetrad-lib/src/main/java/edu/cmu/tetrad/search/Fang.java:148-154 | The counts cancel out of q1 and q2, which are ratios of the raw one-sided sums. |
| FangMoments.ProportionalColumnsSlope | tetrad-lib/src/main/java/edu/cmu/tetrad/search/Fang.java:153 | q1 is a one-sided regression slope: when y is a fixed multiple of x, q1 is that multiple. |
| FangMoments.MomentsMirror | tetrad-lib/src/main/java/edu/cmu/tetrad/search/Fang.java:134-151 | Exchanging the two columns exchanges the x-side moments and counts with the y-side ones. |
| FangOrient.KnowledgeOrients | tetrad-lib/src/main/java/edu/cmu/tetrad/search/Fang.java:312-314 | Definition of `knowledgeOrients`: knowledge settles left -> right when right -> left is forbidden or left -> right is required. Its effect on the outcome is stated by `KnowledgeDecides`. |
| FangOrient.Gate | tetrad-lib/src/main/java/edu/cmu/tetrad/search/Fang.java:157 | An adjacent pair is always gated. A non-adjacent pair whose ratios are both at least 0.2, or differ by at most 0.2, is never gated. A non-adjacent pair with a ratio below 0.2 and a gap above 0.2 is always gated. The body transcribes line 157; these clauses are consequences of it. |
| FangOrient.RedRule | tetrad-lib/src/main/java/edu/cmu/tetrad/search/Fang.java:170-171 | A pair whose five covariances share one sign never fires RED. A pair where c differs in sign from both c1 and c2 always fires RED, whatever c3 and c4 are, and so does c differing in sign from both c3 and c4. When c agrees in sign with c1 and c3, or with c2 and c4, RED does not fire. RED fires exactly when c disagrees in sign with c1 or c3, and also with c2 or c4, as lines 170-171 test. |
| FangOrient.GreenRule | tetrad-lib/src/main/java/edu/cmu/tetrad/search/Fang.java:180 | GREEN needs both ratios non-zero. A non-adjacent gated pair reaches GREEN only with a ratio below -0.5. The body transcribes line 180, including the 0.5 threshold; these clauses are consequences of it and do not pin the threshold. |
| FangOrient.Reverse | tetrad-lib/src/main/java/edu/cmu/tetrad/search/Fang.java:166-195 | The edge seen from the other end carries an arc exactly when the original edge carries the flipped arc. |
| FangOrient.Orient | tetrad-lib/src/main/java/edu/cmu/tetrad/search/Fang.java:157-195 | Each of the six outcomes is characterised, in both directions, by the rule that produces it and the failure of every earlier rule. Ungated pairs get no edge. |
| FangOrient.KnowledgeDecides | tetrad-lib/src/main/java/edu/cmu/tetrad/search/Fang.java:166-169 | Whatever the statistics, a gated pair whose direction the knowledge settles (a forbidden reverse or a required arc) gets exactly that arc. |
| FangOrient.TwoCycleCarriesBothArcs | tetrad-lib/src/main/java/edu/cmu/tetrad/search/Fang.java:170-188 | A RED or GREEN outcome always carries both arcs, and arises only when knowledge settles neither direction. |
| FangOrient.SignAgreementFallsToSkew | tetrad-lib/src/main/java/edu/cmu/tetrad/search/Fang.java:170-195 | When all five covariances share a sign and the GREEN rule fails, the outcome is decided by the sign of R alone. |
| FangOrient.OrientMirror | tetrad-lib/src/main/java/edu/cmu/tetrad/search/Fang.java:157-195 | Exchanging X and Y (knowledge flags and statistics) gives the reversed outcome, unless knowledge settles both directions. |
| FangOrient.ConflictingKnowledgeFavoursFirst | tetrad-lib/src/main/java/edu/cmu/tetrad/search/Fang.java:166-169 | When knowledge settles both directions, the earlier variable wins in either order. |
| FangOrient.GateIsSigned | tetrad-lib/src/main/java/edu/cmu/tetrad/search/Fang.java:157 | A non-adjacent pair whose ratios are both at least 0.2 in magnitude can pass the gate, because the comparison is signed. |
| FangSearch.StatsOf | tetrad-lib/src/main/java/edu/cmu/tetrad/search/Fang.java:153-164 | Definition of the pair statistics: c and c1 to c4 from `covarianceOfPart` with selections (0,0), (1,0), (0,1), (-1,0), (0,-1), the ratios q1 and q2 taken from `FangMoments.Ratios`, and R = c * (sxyxp - sxyyp). Its symmetry is stated by `StatsOfSwap`. |
| FangSearch.Statistics | tetrad-lib/src/main/java/edu/cmu/tetrad/search/Fang.java:148-154 | Both ratio denominators are positive. q1 and q2 are the ratios of the raw positive-part sums. |
| FangSearch.StatisticsRows | tetrad-lib/src/main/java/edu/cmu/tetrad/search/Fang.java:158-162 | c, c1, c2, c3 and c4 are the covariances over all rows, the x > 0, y > 0, x < 0 and y < 0 rows respectively, in terms of the rows they read. |
| FangSearch.StatsOfSwap | tetrad-lib/src/main/java/edu/cmu/tetrad/search/Fang.java:153-164 | With a symmetric covariance, exchanging the columns and their moments exchanges each x-side statistic with its y-side twin and negates R. |
| FangSearch.StatisticsMirror | tetrad-lib/src/main/java/edu/cmu/tetrad/search/Fang.java:134-164 | With a symmetric covariance, the statistics of (Y, X) are those of (X, Y) with the roles exchanged. |
| FangSearch.PairOutcome | tetrad-lib/src/main/java/edu/cmu/tetrad/search/Fang.java:113-195 | Definition of the outcome of pair (i, j): the decision list applied to the pair's adjacency, its two knowledge flags and its statistics. `OrientPair` shows the loop body computes it, and `PassGraphEntry` that the graph stores it. |
| FangSearch.Write | tetrad-lib/src/main/java/edu/cmu/tetrad/search/Fang.java:166-195 | Writing a pair's outcome stores it under that pair's key when it is an edge, and changes no other pair. |
| FangSearch.SweepEntry | tetrad-lib/src/main/java/edu/cmu/tetrad/search/Fang.java:111-112 | Partway through the loops, the graph holds exactly the already-visited pairs a < b whose outcome is an edge, each with that outcome. |
| FangSearch.PassGraph | tetrad-lib/src/main/java/edu/cmu/tetrad/search/Fang.java:109-203 | Definition of the graph the pass returns: the row-major sweep over every pair, starting from the empty graph. `PassGraphEntry` states its entries, `Search` that the loops compute it, and `PassResultUnique` that it is the only graph meeting the declarative description. |
| FangSearch.PassGraphEntry | tetrad-lib/src/main/java/edu/cmu/tetrad/search/Fang.java:109-198 | The finished graph holds the pair (a, b) exactly when a < b and the pair's outcome is an edge. The entry is that outcome. |
| FangSearch.PassGraphIsPassResult | tetrad-lib/src/main/java/edu/cmu/tetrad/search/Fang.java:109-198 | The pass graph satisfies the declarative description of a pass result. |
| FangSearch.PassResultUnique | tetrad-lib/src/main/java/edu/cmu/tetrad/search/Fang.java:109-198 | Any graph satisfying that description is the pass graph. |
| FangSearch.OrientPair | tetrad-lib/src/main/java/edu/cmu/tetrad/search/Fang.java:113-195 | The body of the inner loop (row loop, divisions, covariances, decision list) returns the pair's outcome. |
| FangSearch.VisitPair | tetrad-lib/src/main/java/edu/cmu/tetrad/search/Fang.java:113-195 | Orienting one pair and writing it moves the sweep one column on. |
| FangSearch.VisitRow | tetrad-lib/src/main/java/edu/cmu/tetrad/search/Fang.java:112-197 | The inner loop over j = i + 1 .. n - 1 takes the graph from the start of row i to its end. |
| FangSearch.VisitRows | tetrad-lib/src/main/java/edu/cmu/tetrad/search/Fang.java:111-198 | The outer loop, starting from the empty graph, ends with every pair visited. |
| FangSearch.Search | tetrad-lib/src/main/java/edu/cmu/tetrad/search/Fang.java:109-203 | The pass returns the pass graph. |
| FangSearch.EdgeIffGated | tetrad-lib/src/main/java/edu/cmu/tetrad/search/Fang.java:157 | A pair i < j has an edge exactly when it passes the gate. |
| FangSearch.NoSelfPair | tetrad-lib/src/main/java/edu/cmu/tetrad/search/Fang.java:111-112 | The inner loop starts at j = i + 1, so no variable is ever paired with itself: the graph has no key (a, a). |
| FangSearch.ArcsOfPair | tetrad-lib/src/main/java/edu/cmu/tetrad/search/Fang.java:166-195 | The arcs of the graph between a and b are exactly the arcs of the pair's outcome. |
| FangSearch.RequiredArcPresent | tetrad-lib/src/main/java/edu/cmu/tetrad/search/Fang.java:166-169 | A required arc of a gated pair is in the graph and its reverse is not. When the arc's tail comes first this holds whatever else the knowledge says, since the earlier variable's direction is checked first. When the tail comes second it holds unless knowledge also settles the reverse. |
| FangSearch.ForbiddenArcAbsent | tetrad-lib/src/main/java/edu/cmu/tetrad/search/Fang.java:166-169 | A forbidden arc never appears. When the arc's head comes first this holds whatever else the knowledge says. When the tail comes first it holds unless knowledge also settles that same arc. |
| FangSearch.PairOrderIrrelevant | tetrad-lib/src/main/java/edu/cmu/tetrad/search/Fang.java:111-195 | Given a symmetric skeleton and covariance, and knowledge that does not settle both directions, the outcome of (j, i) is the reversed outcome of (i, j). |
| FasLofs.EnsembleFor | tetrad-lib/src/main/java/edu/cmu/tetrad/algcomparison/algorithm/multi/FasLofs.java:54-64 | Code 0 gives Preserved and code 2 gives Majority, each exactly. Highest is given exactly for every other code, including a missing one. |
| FasLofs.EnsembleCodeRoundTrip | tetrad-lib/src/main/java/edu/cmu/tetrad/algcomparison/algorithm/multi/FasLofs.java:55-64 | Every ensemble is selected by its code, and the codes 0..2 round-trip. |
| FasLofs.UnknownEnsembleIsHighest | tetrad-lib/src/main/java/edu/cmu/tetrad/algcomparison/algorithm/multi/FasLofs.java:54-64 | A code outside 0..2, or a missing one, gives Highest, the same as code 1. |
| FasLofs.Dispatch | tetrad-lib/src/main/java/edu/cmu/tetrad/algcomparison/algorithm/multi/FasLofs.java:40-69 | A sample size below 1 selects the direct search, with the given depth and penalty discount. Anything else selects a bootstrap run with that sample size, the verbose flag, the ensemble `EnsembleFor` gives for the parameter's code, and the whole parameter set forwarded to it (line 66). |
| FasLofs.DispatchIgnoresOtherBranch | tetrad-lib/src/main/java/edu/cmu/tetrad/algcomparison/algorithm/multi/FasLofs.java:40-67 | The direct search does not depend on the bootstrap parameters. Two bootstrap plans that agree on the bootstrap parameters differ at most in the forwarded parameter set. |
| FasLofs.BootstrapDeterminesParams | tetrad-lib/src/main/java/edu/cmu/tetrad/algcomparison/algorithm/multi/FasLofs.java:51-66 | Because line 66 forwards every parameter, two bootstrap plans are equal exactly when their parameters are equal, so a different depth or penalty discount gives a different bootstrap run. |
| FasLofs.ParameterNames | tetrad-lib/src/main/java/edu/cmu/tetrad/algcomparison/algorithm/multi/FasLofs.java:88-97 | The wrapper declares five parameters, with no name repeated. The order of lines 90-95 is given by the body only; the contract and `NamesReadAreDeclared` fix which names are declared, not their order. |
| FasLofs.NamesReadAreDeclared | tetrad-lib/src/main/java/edu/cmu/tetrad/algcomparison/algorithm/multi/FasLofs.java:40-97 | Every parameter a dispatch reads is declared, and every declared parameter is read by one of the two branches. |

## Left out

- The fast adjacency search (`FasStableConcurrent`), and the `pcOrientbk` call, are not modelled (Fang.java lines 102-107). Their source is not shown and the search is concurrent. The resulting skeleton is the input `adjacent`.
- The copy of the data with negative entries set to 0, and the score and independence test built on that copy (Fang.java lines 86-96), are not modelled. They only feed the adjacency search.
- Standardizing, concatenating and transposing the data sets (Fang.java lines 81-84 and 100) is not modelled. The model takes the standardized columns as input.
- `StatUtils.covariance` is not modelled. It is the input `cov`; the mirror properties assume it is symmetric.
- FangParts.CovarianceOfPart: `cov` is an input that returns a value for any two columns, including columns of unequal length, which `PartColumnsMayDifferInLength` shows can be passed to it. What `StatUtils.covariance` does with such columns is not shown, so the model promises nothing about that value.
- IEEE doubles are not modelled: no rounding, NaN or infinities. `Math.signum` is modelled for non-NaN values only.
- An empty positive subset is not modelled. The source divides by a zero count there, and the model requires a positive entry in every column instead.
- The timing, and the getters and setters for depth, penalty discount and knowledge, are not modelled. They only store values.
- The searches the wrapper starts (`Lofs2`, `GeneralBootstrapTest`, `BootstrapEdgeEnsemble` merging) are not modelled. Their source is not shown, and the model returns the plan the wrapper would run. The knowledge handed to those searches, and the inner wrapper left without knowledge (FasLofs.java line 48), are not represented in `Plan`. Nor is the `Lofs2.Rule` handed to the inner searches at lines 41 and 47: it is fixed when the wrapper is built and is not a parameter.
- The lookup of parameter defaults in `Parameters` is not modelled. Its source is not shown. The parameter values are fields of `Params`, and a missing ensemble code is `None`.
- The comparison and simulation classes that call these pieces are context, not part of this model.

=== FILE: fang_moments.dfy ===
/**
 Positive-part moments of a variable pair, as the Fang pair loop accumulates
 them: the x-side sums run over the rows where x > 0 and are divided by the
 number of such rows, the y-side sums run over the rows where y > 0 and are
 divided by theirs. The two row subsets are chosen independently of each other.
 From the means come the two one-sided slope ratios q1 and q2.
 */
module FangMoments {
  import opened FangParts

  /** Number of rows where `g` is strictly positive. */
  function CountPositive(g: seq<real>): nat
  {
    |Rows(g, g, 1)|
  }

  /** Whether the column has a strictly positive entry. */
  predicate HasPositive(g: seq<real>)
  {
    exists k :: 0 <= k < |g| && g[k] > 0.0
  }

  /** A column has a positive row exactly when it has a positive entry. */
  lemma {:induction false} CountPositiveWitness(g: seq<real>)
    ensures CountPositive(g) > 0 <==> HasPositive(g)
  {
    if |g| > 0 {
      var n := |g| - 1;
      var p := g[..n];
      CountPositiveWitness(p);
      assert Rows(g, g, 1) == Rows(p, p, 1) + (if Sign(g[n]) == 1 then [g[n]] else []);
      if HasPositive(p) {
        var k :| 0 <= k < |p| && p[k] > 0.0;
        assert g[k] > 0.0;
      }
      if HasPositive(g) && g[n] <= 0.0 {
        var k :| 0 <= k < |g| && g[k] > 0.0;
        assert p[k] > 0.0;
      }
    }
  }

  /** Sum of `a[k] * b[k]` over the rows `k` where `g[k] > 0`. */
  function PositivePartSum(a: seq<real>, b: seq<real>, g: seq<real>): real
    requires |a| == |g| && |b| == |g|
  {
    if |g| == 0 then 0.0
    else
      var n := |g| - 1;
      PositivePartSum(a[..n], b[..n], g[..n]) + (if g[n] > 0.0 then a[n] * b[n] else 0.0)
  }

  /** The sum of squares over the positive rows is never negative, and it is
      positive exactly when there is a positive row. */
  lemma {:induction false} PositiveSquares(g: seq<real>)
    ensures PositivePartSum(g, g, g) >= 0.0
    ensures PositivePartSum(g, g, g) > 0.0 <==> CountPositive(g) > 0
  {
    if |g| > 0 {
      var n := |g| - 1;
      var p := g[..n];
      PositiveSquares(p);
      assert Rows(g, g, 1) == Rows(p, p, 1) + (if Sign(g[n]) == 1 then [g[n]] else []);
      assert PositivePartSum(g, g, g) == PositivePartSum(p, p, p) + (if g[n] > 0.0 then g[n] * g[n] else 0.0);
      assert CountPositive(g) == |Rows(g, g, 1)| && CountPositive(p) == |Rows(p, p, 1)|;
      if g[n] > 0.0 {
        AddProduct(PositivePartSum(p, p, p), g[n], g[n]);
        assert PositivePartSum(g, g, g) > 0.0;
        assert |Rows(g, g, 1)| > 0;
      } else {
        assert Sign(g[n]) != 1;
        assert Rows(g, g, 1) == Rows(p, p, 1);
        assert PositivePartSum(g, g, g) == PositivePartSum(p, p, p);
        assert PositivePartSum(g, g, g) > 0.0 <==> CountPositive(g) > 0;
      }
    }
  }

  lemma AddProduct(prev: real, a: real, b: real)
    requires prev >= 0.0 && a > 0.0 && b > 0.0
    ensures prev + a * b > 0.0
  {
  }

  lemma ScaledRatio(scale: real, s: real)
    requires s != 0.0
    ensures (scale * s) / s == scale
  {
  }

  /** The product under the sum may be taken in either order. */
  lemma {:induction false} PositivePartSumCommutes(a: seq<real>, b: seq<real>, g: seq<real>)
    requires |a| == |g| && |b| == |g|
    ensures PositivePartSum(a, b, g) == PositivePartSum(b, a, g)
  {
    if |g| > 0 {
      var n := |g| - 1;
      PositivePartSumCommutes(a[..n], b[..n], g[..n]);
    }
  }

  /** Scaling one factor scales the sum. */
  lemma {:induction false} PositivePartSumScales(x: seq<real>, y: seq<real>, g: seq<real>, scale: real)
    requires |x| == |g| && |y| == |g|
    requires forall k :: 0 <= k < |y| ==> y[k] == scale * x[k]
    ensures PositivePartSum(x, y, g) == scale * PositivePartSum(x, x, g)
  {
    if |g| > 0 {
      var n := |g| - 1;
      PositivePartSumScales(x[..n], y[..n], g[..n], scale);
      assert x[n] * y[n] == scale * (x[n] * x[n]);
    }
  }

  /** The four means and two counts of the pair loop. */
  datatype Moments = Moments(sxyxp: real, sxyyp: real, sxxxp: real, syyyp: real, na: nat, nb: nat)

  /** The means of the pair loop; the counts must be positive for the divisions to be defined. */
  function PositiveMoments(x: seq<real>, y: seq<real>): (m: Moments)
    requires |x| == |y|
    requires CountPositive(x) > 0 && CountPositive(y) > 0
    ensures m.sxxxp > 0.0 && m.syyyp > 0.0
    ensures m.na == |Rows(x, x, 1)| && m.nb == |Rows(y, y, 1)|
  {
    PositiveSquares(x);
    PositiveSquares(y);
    var na := CountPositive(x);
    var nb := CountPositive(y);
    Moments(PositivePartSum(x, y, x) / na as real, PositivePartSum(x, y, y) / nb as real,
            PositivePartSum(x, x, x) / na as real, PositivePartSum(y, y, y) / nb as real,
            na, nb)
  }

  /** The ratios q1 = sxyxp / sxxxp and q2 = sxyyp / syyyp. */
  function Ratios(m: Moments): (real, real)
    requires m.sxxxp != 0.0 && m.syyyp != 0.0
  {
    (m.sxyxp / m.sxxxp, m.sxyyp / m.syyyp)
  }

  /** The loop of the pair pass: one sweep over the rows accumulating both
      one-sided sums and counts, then the divisions by the counts. */
  method AccumulateMoments(x: seq<real>, y: seq<real>) returns (m: Moments)
    requires |x| == |y|
    requires CountPositive(x) > 0 && CountPositive(y) > 0
    ensures m == PositiveMoments(x, y)
  {
    var sxyxp, sxyyp, sxxxp, syyyp := 0.0, 0.0, 0.0, 0.0;
    var na, nb := 0, 0;
    var k := 0;
    while k < |x|
      invariant 0 <= k <= |x|
      invariant sxyxp == PositivePartSum(x[..k], y[..k], x[..k])
      invariant sxxxp == PositivePartSum(x[..k], x[..k], x[..k])
      invariant sxyyp == PositivePartSum(x[..k], y[..k], y[..k])
      invariant syyyp == PositivePartSum(y[..k], y[..k], y[..k])
      invariant na == CountPositive(x[..k])
      invariant nb == CountPositive(y[..k])
    {
      assert x[..k + 1][..k] == x[..k];
      assert y[..k + 1][..k] == y[..k];
      if x[k] > 0.0 {
        sxyxp := sxyxp + x[k] * y[k];
        sxxxp := sxxxp + x[k] * x[k];
        na := na + 1;
      }
      if y[k] > 0.0 {
        sxyyp := sxyyp + x[k] * y[k];
        syyyp := syyyp + y[k] * y[k];
        nb := nb + 1;
      }
      k := k + 1;
    }
    assert x[..|x|] == x;
    assert y[..|y|] == y;
    m := Moments(sxyxp / na as real, sxyyp / nb as real, sxxxp / na as real, syyyp / nb as real, na, nb);
  }

  /** The counts cancel: q1 and q2 are ratios of the raw one-sided sums. */
  lemma CountsCancel(x: seq<real>, y: seq<real>)
    requires |x| == |y|
    requires CountPositive(x) > 0 && CountPositive(y) > 0
    ensures Ratios(PositiveMoments(x, y)).0 == PositivePartSum(x, y, x) / PositivePartSum(x, x, x)
    ensures Ratios(PositiveMoments(x, y)).1 == PositivePartSum(x, y, y) / PositivePartSum(y, y, y)
  {
    PositiveSquares(x);
    PositiveSquares(y);
    var na := CountPositive(x) as real;
    var nb := CountPositive(y) as real;
    DivCancel(PositivePartSum(x, y, x), PositivePartSum(x, x, x), na);
    DivCancel(PositivePartSum(x, y, y), PositivePartSum(y, y, y), nb);
  }

  lemma DivCancel(a: real, b: real, n: real)
    requires b != 0.0 && n != 0.0
    ensures (a / n) / (b / n) == a / b
  {
    assert (a / n) * n == a;
    assert (b / n) * n == b;
    assert (a / n) / (b / n) * (b / n) == a / n;
  }

  /** q1 is a one-sided regression slope: when y is exactly `scale` times x,
      q1 recovers `scale`. */
  lemma ProportionalColumnsSlope(x: seq<real>, y: seq<real>, scale: real)
    requires |x| == |y|
    requires CountPositive(x) > 0 && CountPositive(y) > 0
    requires forall k :: 0 <= k < |y| ==> y[k] == scale * x[k]
    ensures Ratios(PositiveMoments(x, y)).0 == scale
  {
    var sxy, sxx := PositivePartSum(x, y, x), PositivePartSum(x, x, x);
    CountsCancel(x, y);
    assert Ratios(PositiveMoments(x, y)).0 == sxy / sxx;
    PositivePartSumScales(x, y, x, scale);
    assert sxy == scale * sxx;
    PositiveSquares(x);
    ScaledRatio(scale, sxx);
    assert sxy / sxx == scale;
  }

  /** Exchanging the two columns exchanges the x-side and y-side moments:
      each side is computed over its own row subset, whatever the other column holds. */
  lemma MomentsMirror(x: seq<real>, y: seq<real>)
    requires |x| == |y|
    requires CountPositive(x) > 0 && CountPositive(y) > 0
    ensures var m := PositiveMoments(x, y);
      PositiveMoments(y, x) == Moments(m.sxyyp, m.sxyxp, m.syyyp, m.sxxxp, m.nb, m.na)
  {
    PositivePartSumCommutes(x, y, x);
    PositivePartSumCommutes(x, y, y);
  }
}

=== FILE: fang_orient.dfy ===
/**
 The per-pair decision of the Fang orientation pass. A pair (X, Y), X before
 Y in the variable list, gets an edge only when it passes the gate; a gated
 pair then gets exactly one outcome from an ordered, first-match-wins list:
 knowledge orienting X -> Y, knowledge orienting Y -> X, a RED two-cycle from
 sign disagreement of the partial covariances, a GREEN two-cycle from two
 large slope ratios, and finally a direction from the sign of R, or an
 undirected edge when R is zero.
 */
module FangOrient {
  import opened FangParts

  /** Background knowledge, keyed by variable name: which directed edges are
      forbidden and which are required. */
  datatype Knowledge = Knowledge(isForbidden: (string, string) -> bool, isRequired: (string, string) -> bool)

  /** Knowledge settles `left -> right` when `right -> left` is forbidden or `left -> right` is required. */
  predicate KnowledgeOrients(k: Knowledge, left: string, right: string)
  {
    k.isForbidden(right, left) || k.isRequired(left, right)
  }

  /** A direction relative to the pair's order: X is the earlier variable. */
  datatype Direction = LeftToRight | RightToLeft

  /** The line colour a two-cycle's arcs are drawn in. */
  datatype Tag = Red | Green

  /** What the pass writes for one unordered pair. */
  datatype EdgeState = NoEdge | Undirected | Directed(dir: Direction) | TwoCycle(tag: Tag)

  /** Whether the edge state holds the directed arc `d`. */
  predicate Carries(e: EdgeState, d: Direction)
  {
    match e
    case Directed(d') => d' == d
    case TwoCycle(_) => true
    case _ => false
  }

  function Flip(d: Direction): Direction
  {
    if d == LeftToRight then RightToLeft else LeftToRight
  }

  /** The same edge seen from the other end of the pair. */
  function Reverse(e: EdgeState): (r: EdgeState)
    ensures forall d :: Carries(r, d) <==> Carries(e, Flip(d))
  {
    match e
    case Directed(d) => Directed(Flip(d))
    case _ => e
  }

  /** The per-pair statistics the decision reads: the full covariance `c`,
      the partial covariances `c1` (x > 0), `c2` (y > 0), `c3` (x < 0),
      `c4` (y < 0), the slope ratios `q1`, `q2`, and the skew
      `r` = c * (sxyxp - sxyyp), whose sign picks the direction in the last rule. */
  datatype PairStats = PairStats(c: real, c1: real, c2: real, c3: real, c4: real,
                                 q1: real, q2: real, r: real)

  /** The statistics with the roles of X and Y exchanged. */
  function Swap(st: PairStats): PairStats
  {
    PairStats(st.c, st.c2, st.c1, st.c4, st.c3, st.q2, st.q1, -st.r)
  }

  /** A pair is considered when the skeleton has it, or when one ratio is
      below 0.2 and the two ratios differ by more than 0.2. The ratios are
      compared signed, not by magnitude: a non-adjacent pair whose ratios are
      both at least 0.2, or within 0.2 of each other, is skipped. */
  function Gate(adjacent: bool, q1: real, q2: real): (g: bool)
    ensures adjacent ==> g
    ensures !adjacent && q1 >= 0.2 && q2 >= 0.2 ==> !g
    ensures -0.2 <= q1 - q2 <= 0.2 ==> (g <==> adjacent)
    ensures !adjacent && (q1 < 0.2 || q2 < 0.2) && Abs(q1 - q2) > 0.2 ==> g
  {
    adjacent || ((q1 < 0.2 || q2 < 0.2) && Abs(q1 - q2) > 0.2)
  }

  /** RED rule: the sign of `c` disagrees with the x-side partials and also
      with the y-side partials. A pair whose five covariances share one sign
      never fires it; `c` differing in sign from both positive-side partials
      always does, whatever the negative sides hold. */
  function RedRule(st: PairStats): (red: bool)
    ensures Sign(st.c) == Sign(st.c1) == Sign(st.c2) == Sign(st.c3) == Sign(st.c4) ==> !red
    ensures Sign(st.c) != Sign(st.c1) && Sign(st.c) != Sign(st.c2) ==> red
    ensures Sign(st.c) == Sign(st.c1) && Sign(st.c) == Sign(st.c3) ==> !red
    ensures Sign(st.c) == Sign(st.c2) && Sign(st.c) == Sign(st.c4) ==> !red
    ensures Sign(st.c) != Sign(st.c3) && Sign(st.c) != Sign(st.c4) ==> red
    ensures red <==> (Sign(st.c) != Sign(st.c1) || Sign(st.c) != Sign(st.c3))
                     && (Sign(st.c) != Sign(st.c2) || Sign(st.c) != Sign(st.c4))
  {
    !(Sign(st.c) == Sign(st.c1) && Sign(st.c) == Sign(st.c3))
    && !(Sign(st.c) == Sign(st.c2) && Sign(st.c) == Sign(st.c4))
  }

  /** GREEN rule: both slope ratios exceed 0.5 in magnitude. Together with
      the gate this means a non-adjacent pair reaches GREEN only through a
      ratio below -0.5. */
  function GreenRule(st: PairStats): (green: bool)
    ensures green ==> st.q1 != 0.0 && st.q2 != 0.0
    ensures green && Gate(false, st.q1, st.q2) ==> st.q1 < -0.5 || st.q2 < -0.5
  {
    Abs(st.q1) > 0.5 && Abs(st.q2) > 0.5
  }

  /** The outcome for one pair; `kXY` and `kYX` say whether knowledge orients
      X -> Y and Y -> X. Each outcome is characterised by the rule that
      produces it and the failure of every earlier rule. */
  function Orient(adjacent: bool, kXY: bool, kYX: bool, st: PairStats): (e: EdgeState)
    ensures e == NoEdge <==> !Gate(adjacent, st.q1, st.q2)
    ensures e == Directed(LeftToRight) <==>
      Gate(adjacent, st.q1, st.q2) && (kXY || (!kYX && !RedRule(st) && !GreenRule(st) && st.r > 0.0))
    ensures e == Directed(RightToLeft) <==>
      Gate(adjacent, st.q1, st.q2) && !kXY && (kYX || (!RedRule(st) && !GreenRule(st) && st.r < 0.0))
    ensures e == TwoCycle(Red) <==> Gate(adjacent, st.q1, st.q2) && !kXY && !kYX && RedRule(st)
    ensures e == TwoCycle(Green) <==>
      Gate(adjacent, st.q1, st.q2) && !kXY && !kYX && !RedRule(st) && GreenRule(st)
    ensures e == Undirected <==>
      Gate(adjacent, st.q1, st.q2) && !kXY && !kYX && !RedRule(st) && !GreenRule(st) && st.r == 0.0
  {
    if !Gate(adjacent, st.q1, st.q2) then NoEdge
    else if kXY then Directed(LeftToRight)
    else if kYX then Directed(RightToLeft)
    else if RedRule(st) then TwoCycle(Red)
    else if GreenRule(st) then TwoCycle(Green)
    else if st.r > 0.0 then Directed(LeftToRight)
    else if st.r < 0.0 then Directed(RightToLeft)
    else Undirected
  }

  /** Knowledge is absolute: whatever the statistics, a gated pair whose
      direction knowledge settles gets exactly that one arc, and X -> Y wins
      when knowledge settles both directions. */
  lemma KnowledgeDecides(k: Knowledge, nameX: string, nameY: string, adjacent: bool, st: PairStats)
    requires Gate(adjacent, st.q1, st.q2)
    ensures k.isForbidden(nameY, nameX) || k.isRequired(nameX, nameY) ==>
      Orient(adjacent, KnowledgeOrients(k, nameX, nameY), KnowledgeOrients(k, nameY, nameX), st) == Directed(LeftToRight)
    ensures !(k.isForbidden(nameY, nameX) || k.isRequired(nameX, nameY))
            && (k.isForbidden(nameX, nameY) || k.isRequired(nameY, nameX)) ==>
      Orient(adjacent, KnowledgeOrients(k, nameX, nameY), KnowledgeOrients(k, nameY, nameX), st) == Directed(RightToLeft)
  {
  }

  /** A RED or GREEN two-cycle always carries both arcs, never a single one. */
  lemma TwoCycleCarriesBothArcs(adjacent: bool, kXY: bool, kYX: bool, st: PairStats)
    requires Orient(adjacent, kXY, kYX, st).TwoCycle?
    ensures Carries(Orient(adjacent, kXY, kYX, st), LeftToRight) && Carries(Orient(adjacent, kXY, kYX, st), RightToLeft)
    ensures !kXY && !kYX
  {
  }

  /** When the full covariance agrees in sign with every partial covariance,
      the RED rule cannot fire, so without knowledge and without two large
      ratios the outcome is decided by the sign of the skew alone. */
  lemma SignAgreementFallsToSkew(adjacent: bool, st: PairStats)
    requires Gate(adjacent, st.q1, st.q2)
    requires Sign(st.c) == Sign(st.c1) == Sign(st.c2) == Sign(st.c3) == Sign(st.c4)
    requires !GreenRule(st)
    ensures Orient(adjacent, false, false, st) ==
      if st.r > 0.0 then Directed(LeftToRight)
      else if st.r < 0.0 then Directed(RightToLeft)
      else Undirected
  {
  }

  /** The decision does not depend on which variable comes first, unless
      knowledge settles both directions: exchanging the roles of X and Y
      gives the same edge seen from the other side. */
  lemma {:induction false} OrientMirror(adjacent: bool, kXY: bool, kYX: bool, st: PairStats)
    requires !(kXY && kYX)
    ensures Orient(adjacent, kYX, kXY, Swap(st)) == Reverse(Orient(adjacent, kXY, kYX, st))
  {
  }

  /** When knowledge settles both directions, the variable that comes first wins:
      the outcome depends on the order of the variables. */
  lemma ConflictingKnowledgeFavoursFirst(adjacent: bool, st: PairStats)
    requires Gate(adjacent, st.q1, st.q2)
    ensures Orient(adjacent, true, true, st) == Directed(LeftToRight)
    ensures Orient(adjacent, true, true, Swap(st)) == Directed(LeftToRight)
  {
  }

  /** The gate compares the ratios signed: a pair outside the skeleton whose
      ratios are both at least 0.2 in magnitude can still be gated in. */
  lemma GateIsSigned()
    ensures Gate(false, -1.0, 0.3)
    ensures !(Abs(-1.0) < 0.2 || Abs(0.3) < 0.2)
  {
  }
}

=== FILE: fang_parts.dfy ===
/**
 Column helpers of the Fang orientation pass: the sign of a value, the
 order-preserving removal of zero entries (`nonzero`), the row selections of
 the sign-partitioned covariances and the partial covariance itself
 (`covarianceOfPart`). Columns are sequences of reals; the covariance of
 the statistics library is an uninterpreted function passed in by the caller.
 */
module FangParts {

  /** The sign of a value as -1, 0 or 1, as `Math.signum` gives it for non-NaN values. */
  function Sign(r: real): (s: int)
    ensures -1 <= s <= 1
    ensures s == 1 <==> r > 0.0
    ensures s == -1 <==> r < 0.0
  {
    if r > 0.0 then 1 else if r < 0.0 then -1 else 0
  }

  function Abs(r: real): real
  {
    if r < 0.0 then -r else r
  }

  // ---------------------------------------------------------------- nonzero

  /** Number of entries of `s` that are not zero. */
  function CountNonzero(s: seq<real>): nat
  {
    if |s| == 0 then 0
    else CountNonzero(s[..|s| - 1]) + (if s[|s| - 1] != 0.0 then 1 else 0)
  }

  /** The non-zero entries of `s`, in their original order. */
  function Nonzero(s: seq<real>): seq<real>
  {
    if |s| == 0 then []
    else Nonzero(s[..|s| - 1]) + (if s[|s| - 1] != 0.0 then [s[|s| - 1]] else [])
  }

  /** `nonzero` returns as many entries as `s` has non-zero ones, and none of them is zero. */
  lemma {:induction false} NonzeroShape(s: seq<real>)
    ensures |Nonzero(s)| == CountNonzero(s)
    ensures forall k :: 0 <= k < |Nonzero(s)| ==> Nonzero(s)[k] != 0.0
  {
    if |s| > 0 {
      NonzeroShape(s[..|s| - 1]);
    }
  }

  /** Increasing list of the positions of the non-zero entries of `s`. */
  function NonzeroIndices(s: seq<real>): (idx: seq<nat>)
    ensures forall k :: 0 <= k < |idx| ==> idx[k] < |s| && s[idx[k]] != 0.0
    ensures forall k, l :: 0 <= k < l < |idx| ==> idx[k] < idx[l]
    ensures forall i :: 0 <= i < |s| && s[i] != 0.0 ==> i in idx
  {
    if |s| == 0 then []
    else NonzeroIndices(s[..|s| - 1]) + (if s[|s| - 1] != 0.0 then [|s| - 1] else [])
  }

  /** `Nonzero(s)` is `s` read at the increasing positions of its non-zero
      entries: the filter keeps exactly those entries and keeps their order. */
  lemma {:induction false} NonzeroIsIndexedSelection(s: seq<real>)
    ensures |Nonzero(s)| == |NonzeroIndices(s)|
    ensures forall k :: 0 <= k < |Nonzero(s)| ==> Nonzero(s)[k] == s[NonzeroIndices(s)[k]]
  {
    if |s| > 0 {
      var n := |s| - 1;
      var p := s[..n];
      NonzeroIsIndexedSelection(p);
      forall k | 0 <= k < |Nonzero(p)|
        ensures Nonzero(p)[k] == s[NonzeroIndices(p)[k]]
      {
        assert NonzeroIndices(p)[k] < |p|;
      }
    }
  }

  lemma NonzeroSnoc(a: seq<real>, e: real)
    ensures Nonzero(a + [e]) == Nonzero(a) + (if e != 0.0 then [e] else [])
  {
    assert (a + [e])[..|a|] == a;
  }

  /** Filtering distributes over concatenation, so no entry moves across another. */
  lemma {:induction false} NonzeroAppend(a: seq<real>, b: seq<real>)
    ensures Nonzero(a + b) == Nonzero(a) + Nonzero(b)
  {
    if |b| == 0 {
      assert a + b == a;
    } else {
      var n := |b| - 1;
      var e := if b[n] != 0.0 then [b[n]] else [];
      calc {
        Nonzero(a + b);
        { assert a + b == (a + b[..n]) + [b[n]]; }
        Nonzero((a + b[..n]) + [b[n]]);
        { NonzeroSnoc(a + b[..n], b[n]); }
        Nonzero(a + b[..n]) + e;
        { NonzeroAppend(a, b[..n]); }
        Nonzero(a) + Nonzero(b[..n]) + e;
        { NonzeroSnoc(b[..n], b[n]); assert b == b[..n] + [b[n]]; }
        Nonzero(a) + Nonzero(b);
      }
    }
  }

  /** A column without zeros passes through `nonzero` unchanged. */
  lemma {:induction false} NonzeroOfNonzeroFree(s: seq<real>)
    requires forall k :: 0 <= k < |s| ==> s[k] != 0.0
    ensures Nonzero(s) == s
  {
    if |s| > 0 {
      NonzeroOfNonzeroFree(s[..|s| - 1]);
      assert s[..|s| - 1] + [s[|s| - 1]] == s;
    }
  }

  /** A column of zeros becomes empty. */
  lemma {:induction false} NonzeroOfZeros(s: seq<real>)
    requires forall k :: 0 <= k < |s| ==> s[k] == 0.0
    ensures Nonzero(s) == []
  {
    if |s| > 0 {
      NonzeroOfZeros(s[..|s| - 1]);
    }
  }

  /** `nonzero` is idempotent. */
  lemma NonzeroIdempotent(s: seq<real>)
    ensures Nonzero(Nonzero(s)) == Nonzero(s)
  {
    NonzeroShape(s);
    NonzeroOfNonzeroFree(Nonzero(s));
  }

  /** The first pass of `nonzero`: count the non-zero entries. */
  method CountNonzeroLoop(q3: seq<real>) returns (count: nat)
    ensures count == |Nonzero(q3)|
  {
    count := 0;
    var i := 0;
    while i < |q3|
      invariant 0 <= i <= |q3|
      invariant count == CountNonzero(q3[..i])
    {
      assert q3[..i + 1][..i] == q3[..i];
      if q3[i] != 0.0 {
        count := count + 1;
      }
      i := i + 1;
    }
    assert q3[..|q3|] == q3;
    NonzeroShape(q3);
  }

  /** The second pass of `nonzero`: copy the non-zero entries over in order. */
  method CopyNonzeroLoop(q3: seq<real>) returns (ret: seq<real>)
    ensures ret == Nonzero(q3)
  {
    ret := [];
    var i := 0;
    while i < |q3|
      invariant 0 <= i <= |q3|
      invariant ret == Nonzero(q3[..i])
    {
      assert q3[..i + 1] == q3[..i] + [q3[i]];
      NonzeroSnoc(q3[..i], q3[i]);
      if q3[i] != 0.0 {
        ret := ret + [q3[i]];
      }
      i := i + 1;
    }
    assert q3[..|q3|] == q3;
  }

  /** The two-pass procedure of `nonzero`, with the Java array modelled as a
      sequence: count the non-zero entries, allocate that many, then copy them
      over in order; the copy fills the allocation exactly. */
  method NonzeroTwoPass(q3: seq<real>) returns (ret: seq<real>)
    ensures ret == Nonzero(q3)
  {
    var count := CountNonzeroLoop(q3);
    ret := CopyNonzeroLoop(q3);
    assert |ret| == count;
  }

  // ---------------------------------------------------------- row selection

  /** The entries `v[k]` of the rows whose guard `g[k]` has sign `sgn`, in order. */
  function Rows(v: seq<real>, g: seq<real>, sgn: int): (r: seq<real>)
    requires |v| == |g|
    ensures |r| <= |v|
  {
    if |g| == 0 then []
    else
      var n := |g| - 1;
      Rows(v[..n], g[..n], sgn) + (if Sign(g[n]) == sgn then [v[n]] else [])
  }

  /** Selecting a column by its own sign leaves only entries of that sign. */
  lemma {:induction false} RowsOfOwnSign(g: seq<real>, sgn: int)
    ensures forall k :: 0 <= k < |Rows(g, g, sgn)| ==> Sign(Rows(g, g, sgn)[k]) == sgn
  {
    if |g| > 0 {
      RowsOfOwnSign(g[..|g| - 1], sgn);
    }
  }

  /** The selections `covarianceOfPart` recognises. */
  predicate IsSelection(q: int, s: int)
  {
    (q == 0 && s == 0) || (q == 1 && s == 0) || (q == 0 && s == 1)
    || (q == -1 && s == 0) || (q == 0 && s == -1)
  }

  /** Whether row (xi, yi) is copied by the selection (q, s); every other row is zero-filled. */
  predicate KeepsRow(q: int, s: int, xi: real, yi: real)
  {
    || (q == 0 && s == 0)
    || (q == 1 && s == 0 && xi > 0.0)
    || (q == 0 && s == 1 && yi > 0.0)
    || (q == -1 && s == 0 && xi < 0.0)
    || (q == 0 && s == -1 && yi < 0.0)
  }

  /** Column `v` with the rows the selection drops replaced by zero. */
  function Masked(v: seq<real>, x: seq<real>, y: seq<real>, q: int, s: int): seq<real>
    requires |v| == |x| == |y|
  {
    if |v| == 0 then []
    else
      var n := |v| - 1;
      Masked(v[..n], x[..n], y[..n], q, s) + [if KeepsRow(q, s, x[n], y[n]) then v[n] else 0.0]
  }

  /** Every kept row holds its value and every dropped row holds zero. */
  lemma {:induction false} MaskedEntries(v: seq<real>, x: seq<real>, y: seq<real>, q: int, s: int)
    requires |v| == |x| == |y|
    ensures |Masked(v, x, y, q, s)| == |v|
    ensures forall k :: 0 <= k < |v| ==> Masked(v, x, y, q, s)[k] == if KeepsRow(q, s, x[k], y[k]) then v[k] else 0.0
  {
    if |v| > 0 {
      var n := |v| - 1;
      MaskedEntries(v[..n], x[..n], y[..n], q, s);
    }
  }

  /** When the selection keeps exactly the rows whose guard has sign `sgn`,
      the zero-filled column filtered by `nonzero` equals the selected rows filtered by `nonzero`. */
  lemma {:induction false} MaskedIsRows(v: seq<real>, x: seq<real>, y: seq<real>, q: int, s: int, g: seq<real>, sgn: int)
    requires |v| == |x| == |y| == |g|
    requires forall k :: 0 <= k < |g| ==> (KeepsRow(q, s, x[k], y[k]) <==> Sign(g[k]) == sgn)
    ensures Nonzero(Masked(v, x, y, q, s)) == Nonzero(Rows(v, g, sgn))
  {
    if |v| > 0 {
      var n := |v| - 1;
      MaskedIsRows(v[..n], x[..n], y[..n], q, s, g[..n], sgn);
      var e := if KeepsRow(q, s, x[n], y[n]) then v[n] else 0.0;
      var t := if Sign(g[n]) == sgn then [v[n]] else [];
      NonzeroAppend(Masked(v[..n], x[..n], y[..n], q, s), [e]);
      NonzeroAppend(Rows(v[..n], g[..n], sgn), t);
      assert Nonzero([e]) == Nonzero(t) by {
        NonzeroSnoc([], e);
        if t == [] {
          assert Nonzero(t) == [];
        } else {
          NonzeroSnoc([], v[n]);
          assert [] + [v[n]] == t;
        }
        assert [] + [e] == [e];
      }
    }
  }

  /** The selection (0, 0) copies every row. */
  lemma MaskedAll(v: seq<real>, x: seq<real>, y: seq<real>)
    requires |v| == |x| == |y|
    ensures Masked(v, x, y, 0, 0) == v
  {
  }

  /** An unrecognised selection copies no row. */
  lemma MaskedNone(v: seq<real>, x: seq<real>, y: seq<real>, q: int, s: int)
    requires |v| == |x| == |y|
    requires !IsSelection(q, s)
    ensures Nonzero(Masked(v, x, y, q, s)) == []
  {
    MaskedEntries(v, x, y, q, s);
    NonzeroOfZeros(Masked(v, x, y, q, s));
  }

  /** The rows of a column chosen by the column's own nonzero sign survive `nonzero` unchanged. */
  lemma RowsOfOwnSignNonzero(g: seq<real>, sgn: int)
    requires sgn != 0
    ensures Nonzero(Rows(g, g, sgn)) == Rows(g, g, sgn)
  {
    RowsOfOwnSign(g, sgn);
    NonzeroOfNonzeroFree(Rows(g, g, sgn));
  }

  /** The covariance of one sign-partitioned part of the pair (x, y): rows the
      selection (q, s) drops are zero-filled, then `nonzero` is applied to each
      column separately and the two results go to the covariance. */
  function CovarianceOfPart(cov: (seq<real>, seq<real>) -> real, x: seq<real>, y: seq<real>, q: int, s: int): real
    requires |x| == |y|
  {
    cov(Nonzero(Masked(x, x, y, q, s)), Nonzero(Masked(y, x, y, q, s)))
  }

  /** What each selection hands to the covariance: all non-zero entries for
      (0, 0); for a one-sided selection, the rows of the chosen sign of the
      guarding column, with `nonzero` applied to the other column's entries of
      those rows; two empty columns for any other selection. */
  lemma CovarianceOfPartCases(cov: (seq<real>, seq<real>) -> real, x: seq<real>, y: seq<real>, q: int, s: int)
    requires |x| == |y|
    ensures var c := CovarianceOfPart(cov, x, y, q, s);
      && (q == 0 && s == 0 ==> c == cov(Nonzero(x), Nonzero(y)))
      && (q == 1 && s == 0 ==> c == cov(Rows(x, x, 1), Nonzero(Rows(y, x, 1))))
      && (q == 0 && s == 1 ==> c == cov(Nonzero(Rows(x, y, 1)), Rows(y, y, 1)))
      && (q == -1 && s == 0 ==> c == cov(Rows(x, x, -1), Nonzero(Rows(y, x, -1))))
      && (q == 0 && s == -1 ==> c == cov(Nonzero(Rows(x, y, -1)), Rows(y, y, -1)))
      && (!IsSelection(q, s) ==> c == cov([], []))
  {
    PartArguments(x, y, q, s);
  }

  /** The two columns handed to the covariance, per selection. */
  lemma PartArguments(x: seq<real>, y: seq<real>, q: int, s: int)
    requires |x| == |y|
    ensures q == 0 && s == 0 ==>
      Nonzero(Masked(x, x, y, q, s)) == Nonzero(x) && Nonzero(Masked(y, x, y, q, s)) == Nonzero(y)
    ensures q == 1 && s == 0 ==>
      Nonzero(Masked(x, x, y, q, s)) == Rows(x, x, 1) && Nonzero(Masked(y, x, y, q, s)) == Nonzero(Rows(y, x, 1))
    ensures q == 0 && s == 1 ==>
      Nonzero(Masked(x, x, y, q, s)) == Nonzero(Rows(x, y, 1)) && Nonzero(Masked(y, x, y, q, s)) == Rows(y, y, 1)
    ensures q == -1 && s == 0 ==>
      Nonzero(Masked(x, x, y, q, s)) == Rows(x, x, -1) && Nonzero(Masked(y, x, y, q, s)) == Nonzero(Rows(y, x, -1))
    ensures q == 0 && s == -1 ==>
      Nonzero(Masked(x, x, y, q, s)) == Nonzero(Rows(x, y, -1)) && Nonzero(Masked(y, x, y, q, s)) == Rows(y, y, -1)
    ensures !IsSelection(q, s) ==>
      Nonzero(Masked(x, x, y, q, s)) == [] && Nonzero(Masked(y, x, y, q, s)) == []
  {
    if q == 0 && s == 0 {
      MaskedAll(x, x, y);
      MaskedAll(y, x, y);
    } else if (q == 1 || q == -1) && s == 0 {
      MaskedIsRows(x, x, y, q, s, x, q);
      MaskedIsRows(y, x, y, q, s, x, q);
      RowsOfOwnSignNonzero(x, q);
    } else if q == 0 && (s == 1 || s == -1) {
      MaskedIsRows(x, x, y, q, s, y, s);
      MaskedIsRows(y, x, y, q, s, y, s);
      RowsOfOwnSignNonzero(y, s);
    } else {
      MaskedNone(x, x, y, q, s);
      MaskedNone(y, x, y, q, s);
    }
  }

  /** `nonzero` runs on each column separately, so a kept row holding a zero
      in the other column shifts the pairing: here the x-positive part hands
      two x values but one y value to the covariance. */
  lemma PartColumnsMayDifferInLength()
    ensures |Nonzero(Masked([1.0, 2.0], [1.0, 2.0], [0.0, 3.0], 1, 0))|
         != |Nonzero(Masked([0.0, 3.0], [1.0, 2.0], [0.0, 3.0], 1, 0))|
  {
    var x, y := [1.0, 2.0], [0.0, 3.0];
    assert Masked(x, x, y, 1, 0) == x;
    assert Masked(y, x, y, 1, 0) == y;
    NonzeroOfNonzeroFree(x);
    assert y == [0.0] + [3.0];
    NonzeroSnoc([0.0], 3.0);
    assert [0.0] == [] + [0.0];
    NonzeroSnoc([], 0.0);
  }
}

=== FILE: fang_search.dfy ===
/**
 The pairwise pass of `Fang.search`: starting from a graph with no edges, it
 visits every pair of variables (i, j) with i < j exactly once, computes the
 pair's statistics from the two standardized columns and writes the outcome
 of the decision list for that pair. The skeleton from the adjacency search,
 the knowledge and the covariance of the statistics library are inputs.
 */
module FangSearch {
  import opened FangParts
  import opened FangMoments
  import opened FangOrient

  /** Everything the pass reads. `cols[i]` is the standardized column of
      variable `i`, `names[i]` its name, `adjacent` the skeleton's adjacency
      and `cov` the covariance of two columns. */
  datatype Input = Input(cols: seq<seq<real>>, names: seq<string>, knowledge: Knowledge,
                         adjacent: (nat, nat) -> bool, cov: (seq<real>, seq<real>) -> real)

  /** One name per column, a rectangular table, and at least one positive
      entry in every column, so that every positive-part count is non-zero. */
  predicate Valid(inp: Input)
  {
    && |inp.names| == |inp.cols|
    && (forall i, j :: 0 <= i < |inp.cols| && 0 <= j < |inp.cols| ==> |inp.cols[i]| == |inp.cols[j]|)
    && (forall i :: 0 <= i < |inp.cols| ==> HasPositive(inp.cols[i]))
  }

  /** The statistics of a pair, given its positive-part moments. */
  function StatsOf(cov: (seq<real>, seq<real>) -> real, x: seq<real>, y: seq<real>, m: Moments): PairStats
    requires |x| == |y|
    requires m.sxxxp != 0.0 && m.syyyp != 0.0
  {
    var c := CovarianceOfPart(cov, x, y, 0, 0);
    var q := Ratios(m);
    PairStats(c, CovarianceOfPart(cov, x, y, 1, 0),
              CovarianceOfPart(cov, x, y, 0, 1), CovarianceOfPart(cov, x, y, -1, 0),
              CovarianceOfPart(cov, x, y, 0, -1),
              q.0, q.1, c * (m.sxyxp - m.sxyyp))
  }

  /** The statistics of the pair (x, y); both ratio denominators are positive
      and the counts cancel out of the ratios. */
  function Statistics(cov: (seq<real>, seq<real>) -> real, x: seq<real>, y: seq<real>): (st: PairStats)
    requires |x| == |y|
    requires HasPositive(x) && HasPositive(y)
    ensures PositivePartSum(x, x, x) > 0.0 && PositivePartSum(y, y, y) > 0.0
    ensures st.q1 == PositivePartSum(x, y, x) / PositivePartSum(x, x, x)
    ensures st.q2 == PositivePartSum(x, y, y) / PositivePartSum(y, y, y)
  {
    CountPositiveWitness(x);
    CountPositiveWitness(y);
    var m := PositiveMoments(x, y);
    PositiveSquares(x);
    PositiveSquares(y);
    CountsCancel(x, y);
    StatsOf(cov, x, y, m)
  }

  /** Each covariance of the pair statistics, in terms of the rows it is computed over:
      the full columns, then the x > 0, y > 0, x < 0 and y < 0 rows. */
  lemma StatsOfRows(cov: (seq<real>, seq<real>) -> real, x: seq<real>, y: seq<real>, m: Moments)
    requires |x| == |y|
    requires m.sxxxp != 0.0 && m.syyyp != 0.0
    ensures var st := StatsOf(cov, x, y, m);
      && st.c == cov(Nonzero(x), Nonzero(y))
      && st.c1 == cov(Rows(x, x, 1), Nonzero(Rows(y, x, 1)))
      && st.c2 == cov(Nonzero(Rows(x, y, 1)), Rows(y, y, 1))
      && st.c3 == cov(Rows(x, x, -1), Nonzero(Rows(y, x, -1)))
      && st.c4 == cov(Nonzero(Rows(x, y, -1)), Rows(y, y, -1))
  {
    CovarianceOfPartCases(cov, x, y, 0, 0);
    CovarianceOfPartCases(cov, x, y, 1, 0);
    CovarianceOfPartCases(cov, x, y, 0, 1);
    CovarianceOfPartCases(cov, x, y, -1, 0);
    CovarianceOfPartCases(cov, x, y, 0, -1);
  }

  /** The same, for the statistics of the pair (x, y). */
  lemma StatisticsRows(cov: (seq<real>, seq<real>) -> real, x: seq<real>, y: seq<real>)
    requires |x| == |y|
    requires HasPositive(x) && HasPositive(y)
    ensures var st := Statistics(cov, x, y);
      && st.c == cov(Nonzero(x), Nonzero(y))
      && st.c1 == cov(Rows(x, x, 1), Nonzero(Rows(y, x, 1)))
      && st.c2 == cov(Nonzero(Rows(x, y, 1)), Rows(y, y, 1))
      && st.c3 == cov(Rows(x, x, -1), Nonzero(Rows(y, x, -1)))
      && st.c4 == cov(Nonzero(Rows(x, y, -1)), Rows(y, y, -1))
  {
    CountPositiveWitness(x);
    CountPositiveWitness(y);
    var m := PositiveMoments(x, y);
    assert Statistics(cov, x, y) == StatsOf(cov, x, y, m);
    StatsOfRows(cov, x, y, m);
  }

  /** The moments with the roles of the two columns exchanged. */
  function SwapMoments(m: Moments): Moments
  {
    Moments(m.sxyyp, m.sxyxp, m.syyyp, m.sxxxp, m.nb, m.na)
  }

  lemma NegProduct(c: real, a: real, b: real)
    ensures c * (b - a) == -(c * (a - b))
  {
  }

  /** Statistics that agree field by field with the exchanged ones are the exchanged ones. */
  lemma SwapFields(sx: PairStats, sy: PairStats)
    requires sy.c == sx.c && sy.c1 == sx.c2 && sy.c2 == sx.c1 && sy.c3 == sx.c4 && sy.c4 == sx.c3
    requires sy.q1 == sx.q2 && sy.q2 == sx.q1 && sy.r == -sx.r
    ensures sy == Swap(sx)
  {
  }

  /** With a symmetric covariance, the covariances of the exchanged pair are
      those of the pair with their x-side and y-side roles exchanged. */
  lemma SwappedCovariances(cov: (seq<real>, seq<real>) -> real, x: seq<real>, y: seq<real>, m: Moments)
    requires |x| == |y|
    requires m.sxxxp != 0.0 && m.syyyp != 0.0
    requires forall a, b :: cov(a, b) == cov(b, a)
    ensures var sx, sy := StatsOf(cov, x, y, m), StatsOf(cov, y, x, SwapMoments(m));
      sy.c == sx.c && sy.c1 == sx.c2 && sy.c2 == sx.c1 && sy.c3 == sx.c4 && sy.c4 == sx.c3
  {
    StatsOfRows(cov, x, y, m);
    StatsOfRows(cov, y, x, SwapMoments(m));
  }

  /** With a symmetric covariance, exchanging the columns together with their
      moments exchanges every x-side statistic with its y-side twin and negates the skew. */
  lemma StatsOfSwap(cov: (seq<real>, seq<real>) -> real, x: seq<real>, y: seq<real>, m: Moments)
    requires |x| == |y|
    requires m.sxxxp != 0.0 && m.syyyp != 0.0
    requires forall a, b :: cov(a, b) == cov(b, a)
    ensures StatsOf(cov, y, x, SwapMoments(m)) == Swap(StatsOf(cov, x, y, m))
  {
    var sx, sy := StatsOf(cov, x, y, m), StatsOf(cov, y, x, SwapMoments(m));
    SwappedCovariances(cov, x, y, m);
    NegProduct(sx.c, m.sxyxp, m.sxyyp);
    assert sy.r == -sx.r;
    SwapFields(sx, sy);
  }

  /** The outcome the pass writes for the pair (i, j), with variable `i` as X and `j` as Y. */
  function PairOutcome(inp: Input, i: nat, j: nat): EdgeState
    requires Valid(inp)
    requires i < |inp.cols| && j < |inp.cols|
  {
    var k := inp.knowledge;
    Orient(inp.adjacent(i, j),
           KnowledgeOrients(k, inp.names[i], inp.names[j]),
           KnowledgeOrients(k, inp.names[j], inp.names[i]),
           Statistics(inp.cov, inp.cols[i], inp.cols[j]))
  }

  /** The output graph: one entry per unordered pair that got an edge, keyed
      by (i, j) with i < j. A missing key means no edge. */
  type Graph = map<(nat, nat), EdgeState>

  /** Whether the pair (a, b), a < b, has already been visited when the loops stand at (i, j). */
  predicate Visited(a: nat, b: nat, i: nat, j: nat)
  {
    a < i || (a == i && b < j)
  }

  /** Writing the outcome `e` of the pair (i, j): an edge is stored under the
      pair's key, no edge leaves the graph as it was. */
  function Write(g: Graph, i: nat, j: nat, e: EdgeState): (r: Graph)
    ensures (i, j) in r <==> (i, j) in g || e != NoEdge
    ensures e != NoEdge ==> r[(i, j)] == e
    ensures forall p | p != (i, j) :: p in r <==> p in g
    ensures forall p | p != (i, j) && p in g :: r[p] == g[p]
  {
    if e == NoEdge then g else g[(i, j) := e]
  }

  /** The graph when the outer loop stands at row `i` and the inner loop at
      column `j`, for the pair outcomes `o` over `n` variables: every pair
      before (i, j) in row-major order has been visited, and each one whose
      outcome is an edge has been written. */
  function Sweep(o: (nat, nat) -> EdgeState, n: nat, i: nat, j: nat): Graph
    requires i < j <= n
    decreases i, j
  {
    if j > i + 1 then
      Write(Sweep(o, n, i, j - 1), i, j - 1, o(i, j - 1))
    else if i == 0 then map[]
    else Sweep(o, n, i - 1, n)
  }

  /** A pair is in the partial graph exactly when it is an ordered pair
      already visited whose outcome is an edge, and then it holds that outcome. */
  lemma {:induction false} SweepEntry(o: (nat, nat) -> EdgeState, n: nat, i: nat, j: nat, a: nat, b: nat)
    requires i < j <= n
    ensures (a, b) in Sweep(o, n, i, j) <==> a < b < n && Visited(a, b, i, j) && o(a, b) != NoEdge
    ensures (a, b) in Sweep(o, n, i, j) ==> Sweep(o, n, i, j)[(a, b)] == o(a, b)
    decreases i, j
  {
    if j > i + 1 {
      SweepEntry(o, n, i, j - 1, a, b);
    } else if i > 0 {
      SweepEntry(o, n, i - 1, n, a, b);
    }
  }

  /** One step of the inner loop: visiting (i, j) writes the pair's outcome
      when it is an edge and leaves the graph alone otherwise. */
  lemma SweepStep(o: (nat, nat) -> EdgeState, n: nat, i: nat, j: nat)
    requires i < j < n
    ensures Sweep(o, n, i, j + 1) == Write(Sweep(o, n, i, j), i, j, o(i, j))
  {
  }

  /** A row starts from the graph the previous row ended with, and the first row from the empty graph. */
  lemma SweepRowStart(o: (nat, nat) -> EdgeState, n: nat, i: nat)
    requires i < n
    ensures Sweep(o, n, i, i + 1) == if i == 0 then map[] else Sweep(o, n, i - 1, n)
  {
  }

  /** The finished sweep holds exactly the pairs a < b whose outcome is an edge. */
  lemma SweepDone(o: (nat, nat) -> EdgeState, n: nat, a: nat, b: nat)
    requires n > 0
    ensures (a, b) in Sweep(o, n, n - 1, n) <==> a < b < n && o(a, b) != NoEdge
    ensures (a, b) in Sweep(o, n, n - 1, n) ==> Sweep(o, n, n - 1, n)[(a, b)] == o(a, b)
  {
    SweepEntry(o, n, n - 1, n, a, b);
  }

  /** The outcome of every pair of variables, as one function. */
  function Outcomes(inp: Input): (nat, nat) -> EdgeState
    requires Valid(inp)
  {
    (a: nat, b: nat) => if a < |inp.cols| && b < |inp.cols| then PairOutcome(inp, a, b) else NoEdge
  }

  /** The graph the pass returns: every pair visited. */
  function PassGraph(inp: Input): Graph
    requires Valid(inp)
  {
    var n := |inp.cols|;
    if n == 0 then map[] else Sweep(Outcomes(inp), n, n - 1, n)
  }

  /** Within range, the outcome function gives each pair's outcome. */
  lemma OutcomesAt(inp: Input, a: nat, b: nat)
    requires Valid(inp)
    requires a < |inp.cols| && b < |inp.cols|
    ensures Outcomes(inp)(a, b) == PairOutcome(inp, a, b)
  {
  }

  /** The finished sweep holds the pairs a < b whose outcome is an edge. */
  lemma PassGraphSweep(inp: Input, a: nat, b: nat)
    requires Valid(inp)
    ensures (a, b) in PassGraph(inp) <==> a < b < |inp.cols| && Outcomes(inp)(a, b) != NoEdge
    ensures (a, b) in PassGraph(inp) ==> PassGraph(inp)[(a, b)] == Outcomes(inp)(a, b)
  {
    var n := |inp.cols|;
    if n > 0 {
      assert PassGraph(inp) == Sweep(Outcomes(inp), n, n - 1, n);
      SweepDone(Outcomes(inp), n, a, b);
    }
  }

  /** The pass writes the pair (a, b) exactly when a < b and the pair's outcome
      is an edge, and the entry is that outcome. */
  lemma PassGraphEntry(inp: Input, a: nat, b: nat)
    requires Valid(inp)
    ensures (a, b) in PassGraph(inp) <==> a < b < |inp.cols| && PairOutcome(inp, a, b) != NoEdge
    ensures (a, b) in PassGraph(inp) ==> a < b < |inp.cols| && PassGraph(inp)[(a, b)] == PairOutcome(inp, a, b)
  {
    PassGraphSweep(inp, a, b);
    if a < b < |inp.cols| {
      OutcomesAt(inp, a, b);
    }
  }

  /** `g` is a result of the pass: exactly the pairs i < j whose outcome is an
      edge, each holding that outcome. */
  predicate IsPassResult(inp: Input, g: Graph)
    requires Valid(inp)
  {
    && (forall p | p in g :: p.0 < p.1 < |inp.cols| && g[p] != NoEdge && g[p] == PairOutcome(inp, p.0, p.1))
    && (forall a, b :: 0 <= a < b < |inp.cols| && PairOutcome(inp, a, b) != NoEdge ==> (a, b) in g)
  }

  /** The pass graph is a pass result. */
  lemma PassGraphIsPassResult(inp: Input)
    requires Valid(inp)
    ensures IsPassResult(inp, PassGraph(inp))
  {
    var pg := PassGraph(inp);
    forall p | p in pg
      ensures p.0 < p.1 < |inp.cols| && pg[p] != NoEdge && pg[p] == PairOutcome(inp, p.0, p.1)
    {
      PassGraphEntry(inp, p.0, p.1);
    }
    forall a: nat, b: nat | 0 <= a < b < |inp.cols| && PairOutcome(inp, a, b) != NoEdge
      ensures (a, b) in pg
    {
      PassGraphEntry(inp, a, b);
    }
  }

  /** Two graphs with the same keys and the same entries are equal. */
  lemma SameEntries(g: Graph, h: Graph)
    requires forall p :: p in g <==> p in h
    requires forall p | p in g :: g[p] == h[p]
    ensures g == h
  {
  }

  /** A pass result is the pass graph: the result is determined by the input. */
  lemma PassResultUnique(inp: Input, g: Graph)
    requires Valid(inp)
    requires IsPassResult(inp, g)
    ensures g == PassGraph(inp)
  {
    var pg := PassGraph(inp);
    forall p
      ensures p in g <==> p in pg
      ensures p in g ==> g[p] == pg[p]
    {
      PassGraphEntry(inp, p.0, p.1);
    }
    SameEntries(g, pg);
  }

  /** The body of the inner loop: the moments are accumulated by the row loop,
      the rest follows the decision list. */
  method OrientPair(inp: Input, i: nat, j: nat) returns (e: EdgeState)
    requires Valid(inp)
    requires i < j < |inp.cols|
    ensures e == PairOutcome(inp, i, j)
  {
    var x := inp.cols[i];
    var y := inp.cols[j];
    CountPositiveWitness(x);
    CountPositiveWitness(y);
    var m := AccumulateMoments(x, y);
    var st := StatsOf(inp.cov, x, y, m);
    var kXY := KnowledgeOrients(inp.knowledge, inp.names[i], inp.names[j]);
    var kYX := KnowledgeOrients(inp.knowledge, inp.names[j], inp.names[i]);
    e := Orient(inp.adjacent(i, j), kXY, kYX, st);
  }

  /** `o` gives the outcome of every pair i < j of the input. */
  predicate Tabulates(inp: Input, o: (nat, nat) -> EdgeState)
    requires Valid(inp)
  {
    forall a: nat, b: nat {:trigger PairOutcome(inp, a, b)} | a < b < |inp.cols| :: o(a, b) == PairOutcome(inp, a, b)
  }

  lemma OutcomesTabulate(inp: Input)
    requires Valid(inp)
    ensures Tabulates(inp, Outcomes(inp))
  {
    forall a: nat, b: nat | a < b < |inp.cols|
      ensures Outcomes(inp)(a, b) == PairOutcome(inp, a, b)
    {
      OutcomesAt(inp, a, b);
    }
  }

  /** One step of the inner loop: the pair (i, j) is oriented and its outcome
      written, which moves the sweep one column on. */
  method VisitPair(inp: Input, ghost o: (nat, nat) -> EdgeState, i: nat, j: nat, g: Graph) returns (g': Graph)
    requires Valid(inp) && Tabulates(inp, o)
    requires i < j < |inp.cols|
    requires g == Sweep(o, |inp.cols|, i, j)
    ensures g' == Sweep(o, |inp.cols|, i, j + 1)
  {
    var e := OrientPair(inp, i, j);
    SweepStep(o, |inp.cols|, i, j);
    g' := Write(g, i, j, e);
  }

  /** The inner loop for row `i`: visits (i, i + 1), ..., (i, n - 1) in order,
      writing each pair whose outcome is an edge. */
  method VisitRow(inp: Input, ghost o: (nat, nat) -> EdgeState, i: nat, start: Graph) returns (g: Graph)
    requires Valid(inp) && Tabulates(inp, o)
    requires i < |inp.cols|
    requires start == Sweep(o, |inp.cols|, i, i + 1)
    ensures g == Sweep(o, |inp.cols|, i, |inp.cols|)
  {
    var n := |inp.cols|;
    g := start;
    var j := i + 1;
    while j < n
      invariant i + 1 <= j <= n
      invariant g == Sweep(o, n, i, j)
    {
      g := VisitPair(inp, o, i, j, g);
      j := j + 1;
    }
  }

  /** The outer loop: row after row, each row continuing from the graph the previous one left. */
  method VisitRows(inp: Input, ghost o: (nat, nat) -> EdgeState) returns (g: Graph)
    requires Valid(inp) && Tabulates(inp, o)
    ensures g == if |inp.cols| == 0 then map[] else Sweep(o, |inp.cols|, |inp.cols| - 1, |inp.cols|)
  {
    var n := |inp.cols|;
    g := map[];
    var i := 0;
    while i < n
      invariant 0 <= i <= n
      invariant g == if i == 0 then map[] else Sweep(o, n, i - 1, n)
    {
      SweepRowStart(o, n, i);
      g := VisitRow(inp, o, i, g);
      i := i + 1;
    }
  }

  /** The pair pass: the graph starts empty, every pair i < j is visited once
      in row-major order, and a pair whose outcome is an edge is written once. */
  method Search(inp: Input) returns (g: Graph)
    requires Valid(inp)
    ensures g == PassGraph(inp)
  {
    OutcomesTabulate(inp);
    g := VisitRows(inp, Outcomes(inp));
  }

  /** Whether the graph holds the arc a -> b. */
  predicate HasArc(g: Graph, a: nat, b: nat)
  {
    || (a < b && (a, b) in g && Carries(g[(a, b)], LeftToRight))
    || (b < a && (b, a) in g && Carries(g[(b, a)], RightToLeft))
  }

  /** Whether the pair (i, j), with `i` as X, passes the gate of the pass. */
  predicate Gated(inp: Input, i: nat, j: nat)
    requires Valid(inp)
    requires i < |inp.cols| && j < |inp.cols|
  {
    var st := Statistics(inp.cov, inp.cols[i], inp.cols[j]);
    Gate(inp.adjacent(i, j), st.q1, st.q2)
  }

  /** A pair i < j has an edge exactly when it passes the gate. */
  lemma EdgeIffGated(inp: Input, a: nat, b: nat)
    requires Valid(inp)
    requires a < b < |inp.cols|
    ensures (a, b) in PassGraph(inp) <==> Gated(inp, a, b)
  {
    PassGraphEntry(inp, a, b);
  }

  /** No variable is paired with itself: the graph has no entry (a, a), for
      any variable, so no self-loop is ever written. */
  lemma NoSelfPair(inp: Input, a: nat)
    requires Valid(inp)
    ensures (a, a) !in PassGraph(inp)
  {
    PassGraphEntry(inp, a, a);
  }

  /** The arcs between a and b, a < b, read off the entry `e` stored for the pair. */
  lemma ArcsOfEntry(g: Graph, a: nat, b: nat, e: EdgeState)
    requires a < b
    requires (a, b) in g <==> e != NoEdge
    requires (a, b) in g ==> g[(a, b)] == e
    ensures HasArc(g, a, b) <==> Carries(e, LeftToRight)
    ensures HasArc(g, b, a) <==> Carries(e, RightToLeft)
  {
  }

  /** The arcs between a and b, a < b, are the arcs of the pair's outcome. */
  lemma ArcsOfPair(inp: Input, a: nat, b: nat)
    requires Valid(inp)
    requires a < b < |inp.cols|
    ensures HasArc(PassGraph(inp), a, b) <==> Carries(PairOutcome(inp, a, b), LeftToRight)
    ensures HasArc(PassGraph(inp), b, a) <==> Carries(PairOutcome(inp, a, b), RightToLeft)
  {
    PassGraphEntry(inp, a, b);
    ArcsOfEntry(PassGraph(inp), a, b, PairOutcome(inp, a, b));
  }

  /** A required arc a -> b is in the graph, and its reverse is not, whenever
      the pair is gated; when b comes first, knowledge must not also settle
      b -> a, since the earlier variable's direction wins. */
  lemma RequiredArcPresent(inp: Input, a: nat, b: nat)
    requires Valid(inp)
    requires a < |inp.cols| && b < |inp.cols| && a != b
    requires inp.knowledge.isRequired(inp.names[a], inp.names[b])
    requires a < b || !KnowledgeOrients(inp.knowledge, inp.names[b], inp.names[a])
    requires if a < b then Gated(inp, a, b) else Gated(inp, b, a)
    ensures HasArc(PassGraph(inp), a, b) && !HasArc(PassGraph(inp), b, a)
  {
    if a < b {
      ArcsOfPair(inp, a, b);
      assert PairOutcome(inp, a, b) == Directed(LeftToRight);
    } else {
      ArcsOfPair(inp, b, a);
      assert PairOutcome(inp, b, a) == Directed(RightToLeft);
    }
  }

  /** A forbidden arc a -> b never appears, unless a comes first and knowledge
      also settles a -> b (the knowledge contradicts itself for that pair). */
  lemma ForbiddenArcAbsent(inp: Input, a: nat, b: nat)
    requires Valid(inp)
    requires a < |inp.cols| && b < |inp.cols| && a != b
    requires inp.knowledge.isForbidden(inp.names[a], inp.names[b])
    requires b < a || !KnowledgeOrients(inp.knowledge, inp.names[a], inp.names[b])
    ensures !HasArc(PassGraph(inp), a, b)
  {
    if a < b {
      ArcsOfPair(inp, a, b);
      var e := PairOutcome(inp, a, b);
      assert e == NoEdge || e == Directed(RightToLeft);
    } else {
      ArcsOfPair(inp, b, a);
      var e := PairOutcome(inp, b, a);
      assert e == NoEdge || e == Directed(LeftToRight);
    }
  }

  /** Exchanging the two columns exchanges every x-side statistic with its y-side twin,
      provided the covariance is symmetric. */
  lemma StatisticsMirror(cov: (seq<real>, seq<real>) -> real, x: seq<real>, y: seq<real>)
    requires |x| == |y|
    requires HasPositive(x) && HasPositive(y)
    requires forall a, b :: cov(a, b) == cov(b, a)
    ensures Statistics(cov, y, x) == Swap(Statistics(cov, x, y))
  {
    CountPositiveWitness(x);
    CountPositiveWitness(y);
    var m := PositiveMoments(x, y);
    MomentsMirror(x, y);
    assert PositiveMoments(y, x) == SwapMoments(m);
    assert Statistics(cov, x, y) == StatsOf(cov, x, y, m);
    assert Statistics(cov, y, x) == StatsOf(cov, y, x, SwapMoments(m));
    StatsOfSwap(cov, x, y, m);
  }

  /** The outcome of a pair does not depend on which of the two variables
      comes first in the list, when the skeleton and the covariance are
      symmetric and knowledge does not settle both directions. */
  lemma PairOrderIrrelevant(inp: Input, i: nat, j: nat)
    requires Valid(inp)
    requires i < |inp.cols| && j < |inp.cols|
    requires inp.adjacent(i, j) == inp.adjacent(j, i)
    requires forall a, b :: inp.cov(a, b) == inp.cov(b, a)
    requires !(KnowledgeOrients(inp.knowledge, inp.names[i], inp.names[j])
               && KnowledgeOrients(inp.knowledge, inp.names[j], inp.names[i]))
    ensures PairOutcome(inp, j, i) == Reverse(PairOutcome(inp, i, j))
  {
    StatisticsMirror(inp.cov, inp.cols[i], inp.cols[j]);
    OrientMirror(inp.adjacent(i, j),
                 KnowledgeOrients(inp.knowledge, inp.names[i], inp.names[j]),
                 KnowledgeOrients(inp.knowledge, inp.names[j], inp.names[i]),
                 Statistics(inp.cov, inp.cols[i], inp.cols[j]));
  }
}

=== FILE: fas_lofs.dfy ===
/**
 The algorithm wrapper around FAS followed by LOFS: from its parameters it
 chooses either one direct search or a bootstrap run, and for the bootstrap
 run it turns the integer ensemble code into the way the bootstrap graphs
 are merged. The searches themselves are outside this model; the result
 here is the plan the wrapper would run.
 */
module FasLofs {
  datatype Option<T> = None | Some(value: T)

  /** How the graphs of the bootstrap samples are merged into one. */
  datatype Ensemble = Preserved | Highest | Majority

  /** The parameters the wrapper reads. `bootstrapEnsemble` is `None` when
      the parameter was never set. */
  datatype Params = Params(depth: int, penaltyDiscount: real, bootstrapSampleSize: int,
                           bootstrapEnsemble: Option<int>, verbose: bool)

  /** The search the wrapper runs: a single direct search with its depth and
      penalty discount, or a bootstrap run over that many samples. The
      bootstrap run is handed the whole parameter set, `forwarded`, which its
      inner searches read depth and penalty discount from. */
  datatype Plan =
    | Direct(depth: int, penaltyDiscount: real)
    | Bootstrap(sampleSize: int, ensemble: Ensemble, verbose: bool, forwarded: Params)

  /** The ensemble for a code: 0, 1 and 2 name Preserved, Highest and
      Majority; a missing code counts as 1, and any other code keeps the
      initial choice, Highest. */
  function EnsembleFor(code: Option<int>): (e: Ensemble)
    ensures e == Preserved <==> code == Some(0)
    ensures e == Majority <==> code == Some(2)
    ensures e == Highest <==> code != Some(0) && code != Some(2)
  {
    var c := if code.Some? then code.value else 1;
    match c
    case 0 => Preserved
    case 1 => Highest
    case 2 => Majority
    case _ => Highest
  }

  /** The code that names each ensemble. */
  function EnsembleCode(e: Ensemble): (c: int)
    ensures 0 <= c <= 2
  {
    match e
    case Preserved => 0
    case Highest => 1
    case Majority => 2
  }

  /** Every ensemble can be chosen by its code, and the three codes are the
      only ones that name an ensemble of their own. */
  lemma EnsembleCodeRoundTrip(e: Ensemble, c: int)
    ensures EnsembleFor(Some(EnsembleCode(e))) == e
    ensures 0 <= c <= 2 ==> EnsembleCode(EnsembleFor(Some(c))) == c
  {
  }

  /** A missing code, and every code outside 0..2, give Highest, the same as code 1. */
  lemma UnknownEnsembleIsHighest(c: int)
    requires c < 0 || c > 2
    ensures EnsembleFor(Some(c)) == Highest
    ensures EnsembleFor(None) == EnsembleFor(Some(1)) == Highest
  {
  }

  /** The plan for the given parameters: a sample size below 1 means a
      single direct search, anything else a bootstrap run. */
  function Dispatch(p: Params): (r: Plan)
    ensures r.Direct? <==> p.bootstrapSampleSize < 1
    ensures r.Direct? ==> r.depth == p.depth && r.penaltyDiscount == p.penaltyDiscount
    ensures r.Bootstrap? ==> r.sampleSize >= 1 && r.sampleSize == p.bootstrapSampleSize
    ensures r.Bootstrap? ==> r.verbose == p.verbose
    ensures r.Bootstrap? ==> r.ensemble == EnsembleFor(p.bootstrapEnsemble)
    ensures r.Bootstrap? ==> r.forwarded == p
  {
    if p.bootstrapSampleSize < 1 then Direct(p.depth, p.penaltyDiscount)
    else Bootstrap(p.bootstrapSampleSize, EnsembleFor(p.bootstrapEnsemble), p.verbose, p)
  }

  /** The direct search ignores the bootstrap parameters. The bootstrap run's
      own settings ignore depth and penalty discount: two bootstrap plans that
      agree on the bootstrap parameters differ only in the forwarded set. */
  lemma DispatchIgnoresOtherBranch(p: Params, q: Params)
    requires p.bootstrapSampleSize == q.bootstrapSampleSize
    ensures p.bootstrapSampleSize < 1 && p.depth == q.depth && p.penaltyDiscount == q.penaltyDiscount
      ==> Dispatch(p) == Dispatch(q)
    ensures p.bootstrapSampleSize >= 1 && p.bootstrapEnsemble == q.bootstrapEnsemble && p.verbose == q.verbose
      ==> Dispatch(p).Bootstrap? && Dispatch(p).(forwarded := q) == Dispatch(q)
  {
  }

  /** Because every parameter is forwarded, a bootstrap plan determines the
      parameters it came from: different depths or penalty discounts give
      different bootstrap runs. */
  lemma BootstrapDeterminesParams(p: Params, q: Params)
    requires p.bootstrapSampleSize >= 1 && q.bootstrapSampleSize >= 1
    ensures Dispatch(p) == Dispatch(q) <==> p == q
  {
  }

  /** The names of the parameters the wrapper declares, in order. */
  function ParameterNames(): (names: seq<string>)
    ensures |names| == 5
    ensures forall a, b :: 0 <= a < b < |names| ==> names[a] != names[b]
  {
    ["depth", "penaltyDiscount", "bootstrapSampleSize", "bootstrapEnsemble", "verbose"]
  }

  /** The names of the parameters a dispatch reads: the sample size always,
      then the ones of the branch it takes. */
  function NamesRead(p: Params): seq<string>
  {
    if Dispatch(p).Direct? then ["bootstrapSampleSize", "depth", "penaltyDiscount"]
    else ["bootstrapSampleSize", "bootstrapEnsemble", "verbose"]
  }

  /** Every parameter the wrapper reads is one it declares, and every declared
      parameter is read by one of the two branches. */
  lemma NamesReadAreDeclared(p: Params)
    ensures forall n :: n in NamesRead(p) ==> n in ParameterNames()
    ensures forall n :: n in ParameterNames() ==>
      n in NamesRead(p.(bootstrapSampleSize := 0)) || n in NamesRead(p.(bootstrapSampleSize := 1))
  {
  }
}
